=== FILE: README.md ===
# ezbak decision layer in Dafny

ezbak is a backup tool. It archives source directories into `.tgz` files,
copies them to local destinations and an S3 bucket, prunes old archives
according to a retention policy, and renames archives to a canonical form.
This project models the logic that sits between the configuration and the
storage, and proves properties of it:

- **Pruning** (`Prune`). The backups of each storage location are listed
  oldest first. Count-based retention deletes everything past the newest
  `max_keep` backups. Time-based retention slices each time-unit list with
  that unit's own count. Keep-all deletes nothing. Local deletions are
  unlinked one by one. S3 deletions go out as one batch delete.
  `get_latest_backup` is modelled here too.
- **The include filter** (`IncludeFilter`) decides which source files go
  into an archive.
- **Rename planning** (`Rename`):
  - the target name of each backup, with and without time-unit labels;
  - the ordered pass that gives a target still shared by another entry a
    `-uid` suffix. The pass uses `str.rstrip('.tgz')`, which strips a
    character set, not a suffix.
- **Settings** (`Config`):
  - `validate`;
  - the count / time / keep-all retention decision and its cache;
  - `update`, which aborts on an unknown key, skips None values and drops
    only some caches.
- **S3 keys** (`AwsKeys`):
  - `_build_full_key`;
  - its inverse in the S3 listing (the bucket-path strip);
  - the input guard of `delete_objects`.

Supporting modules:

- `Outcomes` holds `Option` and `Result`.
- `Sequences` holds `reversed`.
- `PyStr` holds Python's `str.rstrip(chars)` and `str.replace`, which is
  also `re.sub` with a literal pattern.
- `Backups` holds the records: a backup, a storage location, a time unit.
  A backup carries its name, timestamp, storage type and, when local, the
  directory it lives in, so copies of one archive in two destinations are
  distinct values. The file path itself is not modelled.

Collaborators in modules outside this model are parameters:

- A backup's timestamp is a field of the record. Parsing it from the
  filename is not modelled.
- The calendar classifier's unit-to-list grouping is a field of each
  location.
- The filename regex's match is a function `parse: string -> NameParts`.
- The retention-policy manager's per-unit count is a function
  `keepFor: TimeUnit -> nat`.
- `re.search` is a predicate `search(pattern, text)`.
- The always-excluded filenames are a set parameter.
- `new_uid` is an oracle `uidFor(i)`: the uid drawn when entry `i` gets
  a suffix.

The `.tgz` extension and the labels `yearly` … `minutely` follow the
filename format. The constants module that defines them is not part of this
model.

Time-based retention slices each unit list on its own, with that unit's
count (backup_manager.py:447-451); a backup listed under two units can be
deleted by either slice. A duplicate rename target gets one uid suffix,
which is not checked again (backup_manager.py:479-480).

## Model

| member | source | states |
|---|---|---|
| Sequences.Reverse | src/ezbak/controllers/backup_manager.py:445 | `reversed`: same length, and element `i` of the result is element `len-1-i` of the input |
| Sequences.ReversePermutes | src/ezbak/controllers/backup_manager.py:445 | reversing keeps every element with its multiplicity |
| Sequences.ReverseDrop | src/ezbak/controllers/backup_manager.py:445 | slicing off the `k` newest after reversing is reversing the list without its last `k` |
| PyStr.RStrip | src/ezbak/controllers/aws.py:62 | `str.rstrip(chars)`: the result is a prefix, it does not end in a stripped character, and everything cut off is in the set |
| PyStr.Replace | src/ezbak/controllers/backup_manager.py:252 | `str.replace`: with no occurrence of the pattern the text is unchanged; replacing with "" never lengthens the text and shortens it when the pattern occurs |
| PyStr.RStripRemovesSuffix | src/ezbak/controllers/backup_manager.py:480 | when the stem's last character is outside the set, stripping a tail made only of set characters gives back exactly the stem |
| PyStr.ReplaceLeading | src/ezbak/controllers/backup_manager.py:252 | a leading occurrence of the pattern is removed and the replacement carries on with the rest |
| Backups.AllBackupsMembers | src/ezbak/controllers/backup_manager.py:406 | a backup is in the flattened list exactly when some location holds it |
| Backups.AllBackups | src/ezbak/controllers/backup_manager.py:406 | the comprehension `[x for y in locations for x in y.backups]`, location by location (also line 424); its membership and emptiness are stated by the two lemmas below |
| Backups.AllBackupsEmpty | src/ezbak/controllers/backup_manager.py:406-407 | the flattened list is empty exactly when every location is empty |
| Backups.UnitListMembers | src/ezbak/controllers/backup_manager.py:334-336 | every (unit, backup) pair visited comes from that unit's list |
| Backups.UnitMembers | src/ezbak/controllers/backup_manager.py:334-336 | the (unit, backup) pairs in the order the three nested loops visit them: location, then unit list, then backup |
| AwsKeys.NormalizedPrefix | src/ezbak/controllers/aws.py:62 | the bucket path's trailing slashes become exactly one slash: the result minus its slash is a prefix of the path not ending in '/', and everything of the path after it is '/' |
| AwsKeys.BuildFullKey | src/ezbak/controllers/aws.py:50-67 | an empty bucket path returns the key unchanged; otherwise the result starts with the normalized prefix; a key that already has the prefix is returned unchanged; otherwise the prefix is prepended |
| AwsKeys.BuildFullKeyIdempotent | src/ezbak/controllers/aws.py:62-67 | building the full key twice equals building it once |
| AwsKeys.StripBucketPath | src/ezbak/controllers/backup_manager.py:250-253 | an empty bucket path leaves listed keys alone; the strip never lengthens a key; a key without the prefix is unchanged |
| AwsKeys.ListedBackupNames | src/ezbak/controllers/backup_manager.py:250-253 | every listed key is stripped, one name per key, order kept |
| AwsKeys.StripInvertsBuild | src/ezbak/controllers/aws.py:59-67 | round trip: without a bucket path every key comes back; with one, every key that does not contain the normalized prefix comes back from its full key |
| AwsKeys.StripIsNotSuffixRemoval | src/ezbak/controllers/backup_manager.py:252 | the strip removes the prefix wherever it occurs: key "x-b/y" under path "b" lists back as "x-y" |
| AwsKeys.DeleteObjects | src/ezbak/controllers/aws.py:143-152 | no keys means no request; more than 1000 keys is an error; otherwise exactly one request carrying each key's full key, in order |
| Config.Validate | src/ezbak/models/settings.py:58-80 | fails on a missing name, then on missing sources, then on missing destinations, in that order; passes exactly when all three are non-empty |
| Config.ResolvePolicy | src/ezbak/models/settings.py:183-213 | any set `max_backups`, 0 included, gives count-based with that count; otherwise any non-zero retention field gives time-based with all six fields passed through; otherwise keep-all |
| Config.RetentionPolicyOf | src/ezbak/models/settings.py:169-215 | a cached policy is returned unchanged; otherwise the resolved policy is returned and cached, and nothing else changes |
| Config.RetentionPolicyIsCached | src/ezbak/models/settings.py:180-181 | reading the property a second time returns the same policy and state |
| Config.FieldOf | src/ezbak/models/settings.py:28-52 | a key names a field exactly when it is one of the data fields, and that field's key is the key itself |
| Config.KeyOf | src/ezbak/models/settings.py:247-254 | the key of each period's field is one of the six retention keys; the keys of `name`, `sources`, `destinations` and `max_backups` and of the retention fields are data fields, distinct from the other public fields |
| Config.Assign | src/ezbak/models/settings.py:234-235 | `setattr` sets exactly the named field and leaves every other field and every cache alone |
| Config.ApplyAll | src/ezbak/models/settings.py:226-235 | after the loop each field holds the last non-None value given for it, or its old value |
| Config.FirstUnknown | src/ezbak/models/settings.py:226-232 | finds the first key that is not a field; every key before it is a field |
| Config.Update | src/ezbak/models/settings.py:217-256 | aborts exactly when some key is not a field, naming the first such key; otherwise each field is the last non-None value given; the path caches and the name cache are dropped exactly when their key appears; the policy cache is dropped exactly when a retention key appears |
| Config.ResetCaches | src/ezbak/models/settings.py:237-256 | the cache reset touches no data field and drops each cache exactly when its key appears |
| Config.NoneNeverOverwrites | src/ezbak/models/settings.py:234-235 | a field whose only updates are None keeps its value |
| Config.StalePolicyAfterMaxBackupsUpdate | src/ezbak/models/settings.py:240-256 | with a coherent time-based cache, an update of `max_backups` alone leaves the cached time-based policy while the fields now resolve to count-based |
| Config.UpdateRefreshingPolicy | src/ezbak/models/settings.py:217-256 | as `update`: aborts exactly when some key is not a field, naming the first such key; otherwise each field is the last non-None value given and the path and name caches are dropped exactly when their key appears; the policy cache is dropped when `max_backups` or a retention key appears |
| Config.UnnamedFieldKept | src/ezbak/models/settings.py:226-235 | a field whose key appears in no update item keeps its value |
| Config.UntouchedFieldKept | src/ezbak/models/settings.py:226-235 | after the corrected update, a field whose key appears in no update item keeps its value |
| Config.RetentionUntouched | src/ezbak/models/settings.py:247-256 | an update without any retention key leaves all six retention counts as they were |
| Config.UpdateRefreshingPolicyKeepsCacheCoherent | src/ezbak/models/settings.py:169-256 | with the corrected invalidation, a cached policy that agreed with the fields still agrees after any successful update |
| Prune.DropNewest | src/ezbak/controllers/backup_manager.py:444-445 | nothing is deleted when the list holds at most `max_keep`; otherwise exactly `len - max_keep`, the oldest ones, newest first |
| Prune.KeptNewest | src/ezbak/controllers/backup_manager.py:444-445 | the kept part is `min(len, max_keep)` long and is the tail of the list |
| Prune.DropNewestPartition | src/ezbak/controllers/backup_manager.py:444-445 | deleted and kept backups together are exactly the list, as multisets |
| Prune.DropNewestKeepsNewest | src/ezbak/controllers/backup_manager.py:442-445 | on a list sorted oldest first, no deleted backup is newer than a kept one, and the kept ones are the `max_keep` newest |
| Prune.DropPerUnitMembers | src/ezbak/controllers/backup_manager.py:447-451 | a backup is deleted exactly when the slice of some unit list, taken with that unit's own count, deletes it |
| Prune.DropPerUnit | src/ezbak/controllers/backup_manager.py:447-451 | the time-based deletions of one location number exactly the sum, over its unit lists, of each list's excess over that unit's own count |
| Prune.DropPerUnitOnlyOverfull | src/ezbak/controllers/backup_manager.py:448-451 | every deletion comes from a unit list longer than its unit's count and is a member of that list |
| Prune.PruneSelection | src/ezbak/controllers/backup_manager.py:434-454 | keep-all selects nothing, whatever the locations; count-based selects exactly the sum over locations of each list's excess over `max_keep` |
| Prune.PruneLocation | src/ezbak/controllers/backup_manager.py:437-454 | keep-all deletes nothing; count-based deletes the list's excess over `max_keep`; time-based deletes the per-unit excesses |
| Prune.PruneSelectionMembers | src/ezbak/controllers/backup_manager.py:436-451 | a backup is selected exactly when the rule of some location selects it |
| Prune.OfStorage | src/ezbak/controllers/backup_manager.py:456-461 | the filter keeps exactly the backups of the given storage type |
| Prune.OfStorageCounts | src/ezbak/controllers/backup_manager.py:456-461 | each backup of the type is kept as often as it occurs and no other is, so the filtered list is as long as the number of such entries |
| Prune.Names | src/ezbak/controllers/backup_manager.py:461 | one key per backup, in order, each the backup's name |
| Prune.PruneBackups | src/ezbak/controllers/backup_manager.py:426-465 | the returned list is the selection itself, in location order; local deletions are the selected local backups, each as often as it was selected (a backup listed under two units is unlinked twice); the S3 call is made exactly when a selected backup is in S3, is `delete_objects` on the names of exactly the selected S3 backups, raises the batch-limit error exactly when more than 1000 are selected, and otherwise carries the full key of every selected S3 backup and no other key; keep-all deletes nothing and sends nothing |
| Prune.AwsBatchCoversAwsDeletions | src/ezbak/controllers/backup_manager.py:459-462 | the S3 key list is non-empty exactly when a deletion is in S3; the call is refused exactly when the list exceeds 1000; otherwise the request carries the full key of each selected S3 backup |
| Prune.AwsBatchNamesOnlyAwsDeletions | src/ezbak/controllers/backup_manager.py:459-462 | every key of the request is the full key of some selected S3 backup, so no other object is deleted |
| Prune.GetLatestBackup | src/ezbak/controllers/backup_manager.py:400-411 | None exactly when no location has a backup; otherwise a listed backup whose timestamp is at least every other, and the first such in listing order |
| IncludeFilter.Classify | src/ezbak/controllers/backup_manager.py:279-295 | the checks in order: a symlink, then an always-excluded name, then an unmatched include pattern, then a matched exclude pattern |
| IncludeFilter.IncludeFileInBackup | src/ezbak/controllers/backup_manager.py:268-295 | a file is archived exactly when it is not a symlink, its name is not always excluded, the include pattern is unset or matches, and the exclude pattern is unset or does not match |
| IncludeFilter.ExcludeWinsOverInclude | src/ezbak/controllers/backup_manager.py:287-293 | an exclude match rejects the file even when the include pattern matches |
| Rename.WithoutPart | src/ezbak/controllers/backup_manager.py:312-315 | removing a matched group never lengthens the name; it shortens it exactly when the group occurs with its dash |
| Rename.PlanWithoutLabel | src/ezbak/controllers/backup_manager.py:303-323 | `do_rename` is true exactly when the new name differs from the old; without a period or uid nothing is renamed; a period present in the name forces a rename |
| Rename.RenameNoLabels | src/ezbak/controllers/backup_manager.py:297-325 | one entry per listed backup, in listing order; each flag is true exactly when its name changes |
| Rename.PlanWithLabel | src/ezbak/controllers/backup_manager.py:337-361 | a backup already labelled with its unit keeps its name and is not renamed; any other gets `{name}-{timestamp}-{label}.tgz` and is renamed |
| Rename.LabelledName | src/ezbak/controllers/backup_manager.py:352 | the labelled name starts with the parsed name and ends in `.tgz` |
| Rename.RenameWithLabels | src/ezbak/controllers/backup_manager.py:327-363 | one entry per (unit, backup) pair of every location; an entry is not renamed exactly when it already carries its unit's label, and then keeps its current name; otherwise its target is the labelled name |
| Rename.RenamePlan | src/ezbak/controllers/backup_manager.py:469-472 | the labelling setting chooses the with-labels plan, one entry per unit member, or the no-labels plan, one entry per backup; the plan is exactly the chosen one, so those plans' contracts apply |
| Rename.LabelledWithUid | src/ezbak/controllers/backup_manager.py:480 | for a labelled name the character strip removes exactly ".tgz", so the uid goes before the extension |
| Rename.RStripTakesCharacters | src/ezbak/controllers/backup_manager.py:480 | "db-test.tgz" with uid "a1" becomes "db-tes-a1.tgz": the strip also eats the stem's trailing "t" |
| Rename.CountTwo | src/ezbak/controllers/backup_manager.py:476-478 | two entries with the same target make the count exceed one |
| Rename.CountOne | src/ezbak/controllers/backup_manager.py:476-478 | a target held by one entry only counts once |
| Rename.WithUid | src/ezbak/controllers/backup_manager.py:480 | the suffixed name keeps the `rstrip`ped target as its start and ends in `.tgz` |
| Rename.CountTarget | src/ezbak/controllers/backup_manager.py:476-478 | the number of entries whose target is `t`, never more than the list holds |
| Rename.Resolved | src/ezbak/controllers/backup_manager.py:474-480 | one step of the pass keeps the backup and the rename flag, and changes the target only for an entry to be renamed whose target is held more than once |
| Rename.IsCollisionPass | src/ezbak/controllers/backup_manager.py:474-480 | the reference meaning of the loop: entry `i` is resolved against the earlier entries as updated and the later ones as planned |
| Rename.ResolveCollisions | src/ezbak/controllers/backup_manager.py:474-480 | each entry is resolved against the list as it stands when reached; entries not to be renamed are untouched; the others keep their target or get the uid suffix |
| Rename.PassEntry | src/ezbak/controllers/backup_manager.py:474-480 | an entry gets the suffix exactly when it is to be renamed and its target is still held by another entry when it is reached |
| Rename.SharedTargetGetsUid | src/ezbak/controllers/backup_manager.py:474-480 | an entry to be renamed whose target a later entry also plans gets the uid suffix |
| Rename.LastHolderKeepsName | src/ezbak/controllers/backup_manager.py:474-480 | the last holder of a target keeps the plain name when every earlier holder was also to be renamed and no suffixed name equals the target |
| Rename.PassLeavesDistinctTargets | src/ezbak/controllers/backup_manager.py:474-480 | with fresh uids, and distinct names among entries not to be renamed, all targets after the pass are distinct |

## Left out

- File system and network work is not modelled: tar creation and extraction,
  directory walking, copying, chown, the actual unlink and rename calls, and
  every boto3 request, pagination and retry. Only the decisions that choose
  those calls are modelled.
- MongoDB dumping, environment-variable parsing and path resolution are I/O
  and are not modelled. The same goes for the `source_paths` /
  `destination_paths` / `backup_name` properties: only their caches, as
  `update` drops them, are modelled.
- Timestamp parsing, the calendar classifier that fills each location's
  unit lists, the filename regex, and `new_uid` are not part of this model.
  They are parameters or fields.
- Regular-expression matching is an abstract predicate. Removing a group's
  text (`re.sub(f"-{group}", "", name)`) is modelled as literal removal,
  which agrees with the regex for labels and uids made of letters and
  digits.
- Rename.PlanWithLabel: the new name is the canonical labelled name. This
  assumes the filename pattern matches the whole backup name, whereas
  `BACKUP_NAME_REGEX.sub` replaces only the matched part.
- Rename.PlanWithoutLabel: the regex is assumed to match each name exactly
  once. A group left unbound or stale from the previous backup when it does
  not match is not modelled.
- Retention counts are `nat`. Python's negative slice indices are not
  modelled.
- Config.Update: its requires rules out keys that name a private cache, a
  property, a method or a special `__…` attribute, and values whose kind
  does not fit the field's annotation. For such keys the source behaves
  differently per key: reading a property first runs it, which can raise
  (`source_paths` raises when a source is missing) or fill its cache;
  assigning to a property without a setter raises `AttributeError`;
  assigning to a method, a cache or a special attribute replaces it. None of
  these outcomes is modelled. An ill-typed value is stored as given.
- Config.Update: it stops at the first unknown key and reports it. Fields
  already assigned before that key are not modelled, because the source
  then exits the process.
- Storing the resolved policy in a `RetentionPolicyManager` object is
  modelled as storing the decision. The manager's own `get_retention(unit)`
  is the `keepFor` parameter. The count-based `get_retention()` is taken
  to return the count the manager was built with, `max_backups`
  (settings.py:185-187), so it is the policy's `maxKeep`.
- Rename.ResolveCollisions: it counts duplicates over the whole plan,
  across all storage locations, as the source does. A backup copied to two
  destinations whose name is to change therefore gets a uid in the first
  one visited and keeps the plain target in the second; a backup that keeps
  its name is never touched by the pass.
- The actual renaming of a file or S3 object, and the `did_create_backup`
  flag, are not modelled.
- `create_backup`, `restore_backup`, `list_backups`' callers and the
  command-line entry points are outside the decision layer and are not
  modelled.

## Findings

| source | as written | input that shows it | evidently intended | confidence | as-written member | corrected member |
|---|---|---|---|---|---|---|
| src/ezbak/models/settings.py:240-256 | `update` drops the cached retention policy only when a `retention_*` key is updated | settings with `retention_daily=2` and the time-based policy cached; `update({"max_backups": 5})` | the property resolves again after any field that decides the policy changes, so it returns count-based with 5 | medium; not executed | Config.StalePolicyAfterMaxBackupsUpdate | Config.UpdateRefreshingPolicyKeepsCacheCoherent |

=== FILE: aws_keys.dfy ===
/** The pure key handling of the S3 service (src/ezbak/controllers/aws.py) and
    its inverse in the backup listing (src/ezbak/controllers/backup_manager.py). */
module AwsKeys {
  import opened PyStr

  /** The most keys one batch delete request may carry. */
  const MaxDeleteBatch: nat := 1000

  /** The bucket path with trailing slashes replaced by exactly one. */
  function NormalizedPrefix(bucketPath: string): (p: string)
    ensures |p| > 0 && p[|p| - 1] == '/'
    ensures p[..|p| - 1] <= bucketPath
    ensures |p| == 1 || p[|p| - 2] != '/'
    ensures forall i :: |p| - 1 <= i < |bucketPath| ==> bucketPath[i] == '/'
  {
    var stem := RStrip(bucketPath, {'/'});
    assert (stem + "/")[..|stem|] == stem;
    stem + "/"
  }

  /** `_build_full_key`: the object key under the configured bucket path
      (an empty path means "no path"). */
  function BuildFullKey(bucketPath: string, key: string): (r: string)
    ensures bucketPath == [] ==> r == key
    ensures bucketPath != [] ==> NormalizedPrefix(bucketPath) <= r
    ensures NormalizedPrefix(bucketPath) <= key ==> r == key
    ensures r == key || r == NormalizedPrefix(bucketPath) + key
  {
    if bucketPath == [] then key
    else
      var prefix := NormalizedPrefix(bucketPath);
      if prefix <= key then key else prefix + key
  }

  /** Building the full key twice is the same as building it once. */
  lemma BuildFullKeyIdempotent(bucketPath: string, key: string)
    ensures BuildFullKey(bucketPath, BuildFullKey(bucketPath, key)) == BuildFullKey(bucketPath, key)
  {
  }

  /** The listing's inverse: every occurrence of the normalized prefix is
      removed from a listed key (Python's `str.replace` with ""). */
  function StripBucketPath(bucketPath: string, listed: string): (key: string)
    ensures bucketPath == [] ==> key == listed
    ensures |key| <= |listed|
    ensures !Occurs(NormalizedPrefix(bucketPath), listed) ==> key == listed
  {
    if bucketPath == [] then listed else Replace(listed, NormalizedPrefix(bucketPath), [])
  }

  /** Keys listed from S3, with the bucket path taken off each. */
  function ListedBackupNames(bucketPath: string, listed: seq<string>): (names: seq<string>)
    ensures |names| == |listed|
    ensures forall i :: 0 <= i < |listed| ==> names[i] == StripBucketPath(bucketPath, listed[i])
  {
    seq(|listed|, i requires 0 <= i < |listed| => StripBucketPath(bucketPath, listed[i]))
  }

  /** Round trip: without a bucket path every key comes back; with one, a key
      that does not itself contain the normalized prefix is recovered from its
      full key by the listing's strip. */
  lemma {:induction false} StripInvertsBuild(bucketPath: string, key: string)
    requires bucketPath != [] ==> !Occurs(NormalizedPrefix(bucketPath), key)
    ensures StripBucketPath(bucketPath, BuildFullKey(bucketPath, key)) == key
  {
    if bucketPath != [] {
      var prefix := NormalizedPrefix(bucketPath);
      assert !(prefix <= key);
      ReplaceLeading(prefix, key);
    }
  }

  /** The strip removes the prefix wherever it appears, so a key that contains
      it is not recovered: under path "b", the key "x-b/y" lists back as "x-y". */
  lemma StripIsNotSuffixRemoval(bucketPath: string, key: string)
    requires bucketPath == "b" && key == "x-b/y"
    ensures BuildFullKey(bucketPath, key) == "b/" + key
    ensures StripBucketPath(bucketPath, BuildFullKey(bucketPath, key)) == "x-y"
  {
    var p := NormalizedPrefix(bucketPath);
    assert p == "b/" by {
      assert RStrip(bucketPath, {'/'}) == bucketPath;
    }
    assert key[0] != p[0];
    ReplaceLeading(p, key);
    var k1 := key[1..];
    ReplaceSkip(key, p, []);
    assert k1[0] != p[0];
    var k2 := k1[1..];
    ReplaceSkip(k1, p, []);
    var k3 := k2[2..];
    assert k2 == p + k3;
    ReplaceLeading(p, k3);
    assert k3[0] != p[0];
    ReplaceSkip(k3, p, []);
    assert k3[1..] == [];
  }

  /** What `delete_objects` does before any request is sent. */
  datatype DeleteCall =
    | NothingToDelete                 // empty key list: returns True, no request
    | TooManyKeys                     // more than MaxDeleteBatch keys: raises ValueError
    | Request(fullKeys: seq<string>)  // one batch request with these object keys

  function DeleteObjects(bucketPath: string, keys: seq<string>): (call: DeleteCall)
    ensures call.NothingToDelete? <==> |keys| == 0
    ensures call.TooManyKeys? <==> |keys| > MaxDeleteBatch
    ensures call.Request? <==> 0 < |keys| <= MaxDeleteBatch
    ensures call.Request? ==> |call.fullKeys| == |keys|
    ensures call.Request? ==> forall i :: 0 <= i < |keys| ==> call.fullKeys[i] == BuildFullKey(bucketPath, keys[i])
    ensures call.Request? && bucketPath != [] ==> forall i :: 0 <= i < |keys| ==> NormalizedPrefix(bucketPath) <= call.fullKeys[i]
  {
    if |keys| == 0 then NothingToDelete
    else if |keys| > MaxDeleteBatch then TooManyKeys
    else Request(seq(|keys|, i requires 0 <= i < |keys| => BuildFullKey(bucketPath, keys[i])))
  }
}

=== FILE: backups.dfy ===
/** The records the backup manager works on: backups, the storage locations
    that hold them, and the calendar units used by time-based retention. */
module Backups {
  import opened Outcomes

  /** Where a backup lives. */
  datatype StorageType = Local | Aws

  /** The retention periods; each has the label written into filenames. */
  datatype TimeUnit = Yearly | Monthly | Weekly | Daily | Hourly | Minutely

  function Label(u: TimeUnit): (s: string)
    ensures |s| > 0
  {
    match u
    case Yearly => "yearly"
    case Monthly => "monthly"
    case Weekly => "weekly"
    case Daily => "daily"
    case Hourly => "hourly"
    case Minutely => "minutely"
  }

  /** The archive file extension, without its dot. */
  const Extension: string := "tgz"

  /** One archive. `timestamp` is the creation instant (in whole seconds) that
      the filename encodes; parsing it is not part of this model.
      `storagePath` is the directory of a local archive; an S3 object has none. */
  datatype Backup = Backup(name: string, timestamp: int, storage: StorageType, storagePath: Option<string>)

  /** The backups of one location that the calendar classifier put under `unit`. */
  datatype UnitBackups = UnitBackups(unit: TimeUnit, backups: seq<Backup>)

  /** One storage location: its backups oldest first, and the same backups
      grouped per time unit by the (external) calendar classifier. The
      storage type is read from each backup, never from the location. */
  datatype StorageLocation = StorageLocation(backups: seq<Backup>, byUnit: seq<UnitBackups>)

  /** Ordered oldest to newest, as the listing sorts them. */
  ghost predicate OldestFirst(backups: seq<Backup>)
  {
    forall i, j :: 0 <= i < j < |backups| ==> backups[i].timestamp <= backups[j].timestamp
  }

  /** Every backup of every location, location by location (the
      comprehension `[x for y in locations for x in y.backups]`). */
  function AllBackups(locations: seq<StorageLocation>): seq<Backup>
  {
    if locations == [] then [] else locations[0].backups + AllBackups(locations[1..])
  }

  /** A backup is in the flattened list exactly when some location holds it. */
  lemma {:induction false} AllBackupsMembers(locations: seq<StorageLocation>, b: Backup)
    ensures b in AllBackups(locations) <==> exists i :: 0 <= i < |locations| && b in locations[i].backups
  {
    if locations != [] {
      var rest := locations[1..];
      AllBackupsMembers(rest, b);
      if b in AllBackups(rest) {
        var k :| 0 <= k < |rest| && b in rest[k].backups;
        assert b in locations[k + 1].backups;
      }
      if exists i :: 1 <= i < |locations| && b in locations[i].backups {
        var i :| 1 <= i < |locations| && b in locations[i].backups;
        assert b in rest[i - 1].backups;
      }
    }
  }

  /** The flattened list is empty exactly when every location is. */
  lemma {:induction false} AllBackupsEmpty(locations: seq<StorageLocation>)
    ensures AllBackups(locations) == [] <==> forall i :: 0 <= i < |locations| ==> locations[i].backups == []
  {
    if locations != [] {
      var rest := locations[1..];
      AllBackupsEmpty(rest);
      assert forall i :: 1 <= i < |locations| ==> locations[i] == rest[i - 1];
    }
  }

  /** The (unit, backup) pairs of every unit list of every location, in the
      order the with-labels rename visits them. */
  function UnitMembers(locations: seq<StorageLocation>): (pairs: seq<(TimeUnit, Backup)>)
  {
    if locations == [] then [] else UnitListMembers(locations[0].byUnit) + UnitMembers(locations[1..])
  }

  function UnitListMembers(units: seq<UnitBackups>): (pairs: seq<(TimeUnit, Backup)>)
    ensures forall p :: p in pairs ==> exists j :: 0 <= j < |units| && p.0 == units[j].unit && p.1 in units[j].backups
  {
    if units == [] then []
    else
      var u := units[0];
      var here := seq(|u.backups|, i requires 0 <= i < |u.backups| => (u.unit, u.backups[i]));
      var rest := UnitListMembers(units[1..]);
      assert forall p :: p in rest ==> exists j :: 0 <= j < |units| && p.0 == units[j].unit && p.1 in units[j].backups by {
        forall p | p in rest ensures exists j :: 0 <= j < |units| && p.0 == units[j].unit && p.1 in units[j].backups {
          var k :| 0 <= k < |units[1..]| && p.0 == units[1..][k].unit && p.1 in units[1..][k].backups;
          assert units[1..][k] == units[k + 1];
        }
      }
      here + rest
  }
}

=== FILE: config.dfy ===
/** The settings record (src/ezbak/models/settings.py): validation, the
    retention-policy decision with its cache, and `update` with its cache
    invalidation. */
module Config {
  import opened Outcomes
  import opened Backups

  /** The six per-period retention counts, each possibly unset. */
  datatype RetentionCounts = RetentionCounts(
    yearly: Option<nat>, monthly: Option<nat>, weekly: Option<nat>,
    daily: Option<nat>, hourly: Option<nat>, minutely: Option<nat>)

  /** The decision handed to the retention-policy manager. */
  datatype RetentionPolicy =
    | KeepAll
    | CountBased(maxKeep: nat)
    | TimeBased(counts: RetentionCounts)

  /** A setting value as `update` receives it; `NoValue` is Python's None. */
  datatype Value = NoValue | Text(text: string) | Number(number: nat) | Flag(flag: bool) | TextList(items: seq<string>)

  /** One `key: value` item of an update dictionary. */
  datatype Assignment = Assignment(key: string, value: Value)

  /** The fields that validation, the retention decision and `update` read
      (`name`, `sources`, `destinations`, `max_backups` and the six retention
      counts), the remaining public fields by name, and the four cached
      properties (`_source_paths`, `_destination_paths`,
      `_backup_name`, `_retention_policy`). */
  datatype Settings = Settings(
    name: Option<string>,
    sources: Option<seq<string>>,
    destinations: Option<seq<string>>,
    maxBackups: Option<nat>,
    retention: RetentionCounts,
    others: map<string, Value>,
    sourcePaths: Option<seq<string>>,
    destinationPaths: Option<seq<string>>,
    backupName: Option<string>,
    retentionPolicy: Option<RetentionPolicy>)

  const RetentionKeys: set<string> := {
    "retention_yearly", "retention_monthly", "retention_weekly",
    "retention_daily", "retention_hourly", "retention_minutely"}

  /** Public fields that validation, the retention decision and pruning do not read. */
  const OtherFields: set<string> := {
    "action", "tz", "log_level", "log_file", "compression_level", "exclude_regex",
    "include_regex", "label_time_units", "chown_user", "chown_group", "cron", "rename_files"}

  /** Every public data field of the settings class. */
  const DataFields: set<string> := {"name", "sources", "destinations", "max_backups"} + RetentionKeys + OtherFields

  /** Attributes that exist but are not data fields: the private caches, the
      properties and the methods. */
  const NonFieldMembers: set<string> := {
    "_source_paths", "_destination_paths", "_retention_policy", "_backup_name",
    "validate", "backup_name", "destination_paths", "source_paths",
    "retention_policy", "update", "model_dump"}

  // ---------------------------------------------------------------- validate

  datatype ValidationError = MissingName | MissingSources | MissingDestinations

  /** `validate`: the first missing requirement, or None when all are present. */
  function Validate(s: Settings): (r: Option<ValidationError>)
    ensures r.None? <==> Filled(s.name) && Filled(s.sources) && Filled(s.destinations)
    ensures r == Some(MissingName) <==> !Filled(s.name)
    ensures r == Some(MissingSources) <==> Filled(s.name) && !Filled(s.sources)
    ensures r == Some(MissingDestinations) <==> Filled(s.name) && Filled(s.sources) && !Filled(s.destinations)
  {
    if !Filled(s.name) then Some(MissingName)
    else if !Filled(s.sources) then Some(MissingSources)
    else if !Filled(s.destinations) then Some(MissingDestinations)
    else None
  }

  // -------------------------------------------------------- retention policy

  /** The count configured for one period. */
  function CountFor(c: RetentionCounts, u: TimeUnit): Option<nat>
  {
    match u
    case Yearly => c.yearly
    case Monthly => c.monthly
    case Weekly => c.weekly
    case Daily => c.daily
    case Hourly => c.hourly
    case Minutely => c.minutely
  }

  /** Python truthiness of an optional count: set and non-zero. */
  predicate Truthy(o: Option<nat>)
  {
    o.Some? && o.value != 0
  }

  /** Python's `any([...])` over the six retention fields. */
  predicate AnyTruthy(c: RetentionCounts)
  {
    Truthy(c.yearly) || Truthy(c.monthly) || Truthy(c.weekly)
    || Truthy(c.daily) || Truthy(c.hourly) || Truthy(c.minutely)
  }

  /** The three-way decision, computed from the fields alone. */
  function ResolvePolicy(s: Settings): (p: RetentionPolicy)
    ensures p.CountBased? <==> s.maxBackups.Some?
    ensures p.CountBased? ==> p.maxKeep == s.maxBackups.value
    ensures p.TimeBased? <==> s.maxBackups.None? && AnyTruthy(s.retention)
    ensures p.TimeBased? ==> p.counts == s.retention
    ensures p.KeepAll? <==> s.maxBackups.None? && !AnyTruthy(s.retention)
  {
    if s.maxBackups.Some? then CountBased(s.maxBackups.value)
    else if AnyTruthy(s.retention) then TimeBased(s.retention)
    else KeepAll
  }

  /** The `retention_policy` property: the cached policy when there is one,
      otherwise the resolved policy, which is then cached. */
  function RetentionPolicyOf(s: Settings): (r: (RetentionPolicy, Settings))
    ensures s.retentionPolicy.Some? ==> r.0 == s.retentionPolicy.value && r.1 == s
    ensures s.retentionPolicy.None? ==> r.0 == ResolvePolicy(s)
    ensures r.1.retentionPolicy == Some(r.0)
    ensures r.1 == s.(retentionPolicy := Some(r.0))
  {
    match s.retentionPolicy
    case Some(p) => (p, s)
    case None =>
      var p := ResolvePolicy(s);
      (p, s.(retentionPolicy := Some(p)))
  }

  /** Reading the property again returns the same policy and changes nothing. */
  lemma RetentionPolicyIsCached(s: Settings)
    ensures RetentionPolicyOf(RetentionPolicyOf(s).1) == RetentionPolicyOf(s)
  {
  }

  /** The cache agrees with what the fields would resolve to now. */
  ghost predicate PolicyCacheCoherent(s: Settings)
  {
    s.retentionPolicy.None? || s.retentionPolicy.value == ResolvePolicy(s)
  }

  // ------------------------------------------------------------------ update

  /** A data field of the settings class. */
  datatype Field =
    | NameField
    | SourcesField
    | DestinationsField
    | MaxBackupsField
    | RetentionField(unit: TimeUnit)
    | OtherField(attr: string)

  /** The data field an update key names, or None when the key is not a data field. */
  function FieldOf(key: string): (f: Option<Field>)
    ensures f.Some? <==> key in DataFields
    ensures f.Some? ==> KeyOf(f.value) == key
  {
    match key
    case "name" => Some(NameField)
    case "sources" => Some(SourcesField)
    case "destinations" => Some(DestinationsField)
    case "max_backups" => Some(MaxBackupsField)
    case "retention_yearly" => Some(RetentionField(Yearly))
    case "retention_monthly" => Some(RetentionField(Monthly))
    case "retention_weekly" => Some(RetentionField(Weekly))
    case "retention_daily" => Some(RetentionField(Daily))
    case "retention_hourly" => Some(RetentionField(Hourly))
    case "retention_minutely" => Some(RetentionField(Minutely))
    case _ => if key in OtherFields then Some(OtherField(key)) else None
  }

  /** The update key that names a data field; `FieldOf` inverts it. */
  function KeyOf(f: Field): (key: string)
    ensures f.RetentionField? ==> key in RetentionKeys
    ensures !f.OtherField? ==> key in DataFields && key !in OtherFields
  {
    match f
    case NameField => "name"
    case SourcesField => "sources"
    case DestinationsField => "destinations"
    case MaxBackupsField => "max_backups"
    case RetentionField(Yearly) => "retention_yearly"
    case RetentionField(Monthly) => "retention_monthly"
    case RetentionField(Weekly) => "retention_weekly"
    case RetentionField(Daily) => "retention_daily"
    case RetentionField(Hourly) => "retention_hourly"
    case RetentionField(Minutely) => "retention_minutely"
    case OtherField(a) => a
  }

  /** The value of a data field as Python would report it. */
  function FieldValue(s: Settings, f: Field): Value
  {
    match f
    case NameField => if s.name.Some? then Text(s.name.value) else NoValue
    case SourcesField => if s.sources.Some? then TextList(s.sources.value) else NoValue
    case DestinationsField => if s.destinations.Some? then TextList(s.destinations.value) else NoValue
    case MaxBackupsField => CountValue(s.maxBackups)
    case RetentionField(u) => CountValue(CountFor(s.retention, u))
    case OtherField(a) => if a in s.others then s.others[a] else NoValue
  }

  function CountValue(o: Option<nat>): Value
  {
    if o.Some? then Number(o.value) else NoValue
  }

  /** The value's kind matches the field's annotation (text for the name,
      lists of paths for sources and destinations, integers for counts);
      None fits every field. */
  predicate FitsField(f: Field, v: Value)
  {
    match f
    case NameField => v.NoValue? || v.Text?
    case SourcesField => v.NoValue? || v.TextList?
    case DestinationsField => v.NoValue? || v.TextList?
    case MaxBackupsField => v.NoValue? || v.Number?
    case RetentionField(_) => v.NoValue? || v.Number?
    case OtherField(_) => true
  }

  /** `setattr(self, key, v)` for a data field and a non-None value. */
  function Assign(s: Settings, f: Field, v: Value): (r: Settings)
    requires v != NoValue && FitsField(f, v)
    ensures FieldValue(r, f) == v
    ensures forall g :: g != f ==> FieldValue(r, g) == FieldValue(s, g)
    ensures r.sourcePaths == s.sourcePaths && r.destinationPaths == s.destinationPaths
    ensures r.backupName == s.backupName && r.retentionPolicy == s.retentionPolicy
  {
    match f
    case NameField => s.(name := Some(v.text))
    case SourcesField => s.(sources := Some(v.items))
    case DestinationsField => s.(destinations := Some(v.items))
    case MaxBackupsField => s.(maxBackups := Some(v.number))
    case RetentionField(u) => s.(retention := WithCount(s.retention, u, v.number))
    case OtherField(a) => s.(others := s.others[a := v])
  }

  function WithCount(c: RetentionCounts, u: TimeUnit, n: nat): (r: RetentionCounts)
    ensures CountFor(r, u) == Some(n)
    ensures forall w :: w != u ==> CountFor(r, w) == CountFor(c, w)
  {
    match u
    case Yearly => c.(yearly := Some(n))
    case Monthly => c.(monthly := Some(n))
    case Weekly => c.(weekly := Some(n))
    case Daily => c.(daily := Some(n))
    case Hourly => c.(hourly := Some(n))
    case Minutely => c.(minutely := Some(n))
  }

  /** Every update key names a data field or no attribute at all, and each
      value fits the field it names. */
  predicate WellFormedUpdates(updates: seq<Assignment>)
    decreases |updates|
  {
    updates == [] || (WellFormedUpdates(updates[..|updates| - 1]) && WellFormedAssignment(updates[|updates| - 1]))
  }

  /** A name starting with two underscores: Python's special attributes
      (`__doc__`, `__dict__`, …), which every object has. */
  predicate Dunder(key: string)
  {
    |key| >= 2 && key[0] == '_' && key[1] == '_'
  }

  predicate WellFormedAssignment(a: Assignment)
  {
    && a.key !in NonFieldMembers
    && !Dunder(a.key)
    && (FieldOf(a.key).Some? ==> FitsField(FieldOf(a.key).value, a.value))
  }

  /** Reference meaning of a sequence of assignments for one field: the last
      non-None value given for it, or `default` when there is none. */
  function LastSet(updates: seq<Assignment>, f: Field, default: Value): Value
  {
    if updates == [] then default
    else
      var u := updates[|updates| - 1];
      if FieldOf(u.key) == Some(f) && u.value != NoValue then u.value
      else LastSet(updates[..|updates| - 1], f, default)
  }

  /** The assignment loop of `update`, once every key is known to be a data field. */
  function ApplyAll(s: Settings, updates: seq<Assignment>): (r: Settings)
    requires WellFormedUpdates(updates) && FirstUnknown(updates).None?
    ensures forall f :: FieldValue(r, f) == LastSet(updates, f, FieldValue(s, f))
    ensures r.sourcePaths == s.sourcePaths && r.destinationPaths == s.destinationPaths
    ensures r.backupName == s.backupName && r.retentionPolicy == s.retentionPolicy
  {
    if updates == [] then s
    else
      var before := ApplyAll(s, updates[..|updates| - 1]);
      var u := updates[|updates| - 1];
      if u.value == NoValue then before else Assign(before, FieldOf(u.key).value, u.value)
  }

  /** Some update item has this key (its value may be None). */
  predicate HasKey(updates: seq<Assignment>, key: string)
  {
    exists i :: 0 <= i < |updates| && updates[i].key == key
  }

  /** Some update item has one of these keys. */
  predicate HasAnyKey(updates: seq<Assignment>, keys: set<string>)
  {
    exists i :: 0 <= i < |updates| && updates[i].key in keys
  }

  /** The position of the first key that is not a data field, if any. */
  function FirstUnknown(updates: seq<Assignment>): (r: Option<nat>)
    ensures r.None? <==> forall i :: 0 <= i < |updates| ==> Known(updates[i])
    ensures r.Some? ==> r.value < |updates| && !Known(updates[r.value])
    ensures r.Some? ==> forall i :: 0 <= i < r.value ==> Known(updates[i])
    decreases |updates|
  {
    if updates == [] then None
    else
      var prefix := updates[..|updates| - 1];
      assert forall i :: 0 <= i < |prefix| ==> prefix[i] == updates[i];
      match FirstUnknown(prefix)
      case Some(k) => Some(k)
      case None => if Known(updates[|updates| - 1]) then None else Some(|updates| - 1)
  }

  /** The item's key names a data field. */
  predicate Known(a: Assignment)
  {
    a.key in DataFields
  }

  datatype UpdateError = UnknownKey(key: string)

  /** `update` as written: a key that is no attribute aborts, None values are
      skipped, and only the caches behind `sources`, `destinations`, `name`
      and the six retention keys are dropped. */
  function Update(s: Settings, updates: seq<Assignment>): (r: Result<Settings, UpdateError>)
    requires WellFormedUpdates(updates)
    ensures r.Failure? <==> exists i :: 0 <= i < |updates| && updates[i].key !in DataFields
    ensures r.Failure? ==>
      exists i :: && 0 <= i < |updates| && updates[i].key !in DataFields
                  && r.error == UnknownKey(updates[i].key)
                  && forall j :: 0 <= j < i ==> updates[j].key in DataFields
    ensures r.Success? ==> forall f :: FieldValue(r.value, f) == LastSet(updates, f, FieldValue(s, f))
    ensures r.Success? ==> r.value.sourcePaths == (if HasKey(updates, "sources") then None else s.sourcePaths)
    ensures r.Success? ==> r.value.destinationPaths == (if HasKey(updates, "destinations") then None else s.destinationPaths)
    ensures r.Success? ==> r.value.backupName == (if HasKey(updates, "name") then None else s.backupName)
    ensures r.Success? ==> r.value.retentionPolicy == (if HasAnyKey(updates, RetentionKeys) then None else s.retentionPolicy)
  {
    match FirstUnknown(updates)
    case Some(i) => Failure(UnknownKey(updates[i].key))
    case None => Success(ResetCaches(ApplyAll(s, updates), updates))
  }

  /** The cache-reset block of `update`. */
  function ResetCaches(s: Settings, updates: seq<Assignment>): (r: Settings)
    ensures forall f :: FieldValue(r, f) == FieldValue(s, f)
    ensures r.sourcePaths == (if HasKey(updates, "sources") then None else s.sourcePaths)
    ensures r.destinationPaths == (if HasKey(updates, "destinations") then None else s.destinationPaths)
    ensures r.backupName == (if HasKey(updates, "name") then None else s.backupName)
    ensures r.retentionPolicy == (if HasAnyKey(updates, RetentionKeys) then None else s.retentionPolicy)
  {
    s.(sourcePaths := if HasKey(updates, "sources") then None else s.sourcePaths,
       destinationPaths := if HasKey(updates, "destinations") then None else s.destinationPaths,
       backupName := if HasKey(updates, "name") then None else s.backupName,
       retentionPolicy := if HasAnyKey(updates, RetentionKeys) then None else s.retentionPolicy)
  }

  /** A field that no item gives a non-None value keeps its value. */
  lemma {:induction false} NoneNeverOverwrites(updates: seq<Assignment>, f: Field, default: Value)
    requires forall i :: 0 <= i < |updates| && FieldOf(updates[i].key) == Some(f) ==> updates[i].value == NoValue
    ensures LastSet(updates, f, default) == default
  {
    if updates != [] {
      NoneNeverOverwrites(updates[..|updates| - 1], f, default);
    }
  }

  /** Updating only `max_backups` leaves a cached retention policy in place,
      so the property keeps returning a policy the fields no longer give. */
  lemma StalePolicyAfterMaxBackupsUpdate()
    ensures var counts := RetentionCounts(None, None, None, Some(2), None, None);
            var s := Settings(None, None, None, None, counts, map[], None, None, None, Some(TimeBased(counts)));
            var r := Update(s, [Assignment("max_backups", Number(5))]);
            && PolicyCacheCoherent(s)
            && r.Success?
            && RetentionPolicyOf(r.value).0 == TimeBased(counts)
            && ResolvePolicy(r.value) == CountBased(5)
  {
    var counts := RetentionCounts(None, None, None, Some(2), None, None);
    var s := Settings(None, None, None, None, counts, map[], None, None, None, Some(TimeBased(counts)));
    var updates := [Assignment("max_backups", Number(5))];
    assert FieldOf("max_backups") == Some(MaxBackupsField);
    assert !HasAnyKey(updates, RetentionKeys);
    var r := Update(s, updates);
    assert FieldValue(r.value, MaxBackupsField) == Number(5);
  }

  /** `update` with `max_backups` added to the keys that drop the cached
      retention policy. */
  function UpdateRefreshingPolicy(s: Settings, updates: seq<Assignment>): (r: Result<Settings, UpdateError>)
    requires WellFormedUpdates(updates)
    ensures r.Failure? <==> exists i :: 0 <= i < |updates| && updates[i].key !in DataFields
    ensures r.Failure? ==>
      exists i :: && 0 <= i < |updates| && updates[i].key !in DataFields
                  && r.error == UnknownKey(updates[i].key)
                  && forall j :: 0 <= j < i ==> updates[j].key in DataFields
    ensures r.Success? ==> forall f :: FieldValue(r.value, f) == LastSet(updates, f, FieldValue(s, f))
    ensures r.Success? ==> r.value.sourcePaths == (if HasKey(updates, "sources") then None else s.sourcePaths)
    ensures r.Success? ==> r.value.destinationPaths == (if HasKey(updates, "destinations") then None else s.destinationPaths)
    ensures r.Success? ==> r.value.backupName == (if HasKey(updates, "name") then None else s.backupName)
    ensures r.Success? ==>
      r.value.retentionPolicy == (if HasKey(updates, "max_backups") || HasAnyKey(updates, RetentionKeys) then None else s.retentionPolicy)
  {
    match Update(s, updates)
    case Failure(e) => Failure(e)
    case Success(t) =>
      Success(if HasKey(updates, "max_backups") then DropPolicyCache(t) else t)
  }

  /** Forgets the cached retention policy and nothing else. */
  function DropPolicyCache(s: Settings): (r: Settings)
    ensures forall f :: FieldValue(r, f) == FieldValue(s, f)
    ensures r.retentionPolicy.None?
    ensures r.sourcePaths == s.sourcePaths && r.destinationPaths == s.destinationPaths && r.backupName == s.backupName
  {
    s.(retentionPolicy := None)
  }

  /** A field whose key no update item has keeps its value. */
  lemma {:induction false} UnnamedFieldKept(updates: seq<Assignment>, f: Field, default: Value)
    requires !HasKey(updates, KeyOf(f))
    ensures LastSet(updates, f, default) == default
  {
    if updates != [] {
      var prefix := updates[..|updates| - 1];
      assert updates[|updates| - 1].key != KeyOf(f);
      assert !HasKey(prefix, KeyOf(f)) by {
        assert forall i :: 0 <= i < |prefix| ==> prefix[i] == updates[i];
      }
      UnnamedFieldKept(prefix, f, default);
    }
  }

  /** After the corrected update, a field that no update item names keeps its value. */
  lemma UntouchedFieldKept(s: Settings, updates: seq<Assignment>, f: Field)
    requires WellFormedUpdates(updates)
    requires !HasKey(updates, KeyOf(f))
    ensures UpdateRefreshingPolicy(s, updates).Success? ==>
      FieldValue(UpdateRefreshingPolicy(s, updates).value, f) == FieldValue(s, f)
  {
    UnnamedFieldKept(updates, f, FieldValue(s, f));
  }

  /** With the corrected invalidation a coherent cache stays coherent. */
  lemma {:induction false} UpdateRefreshingPolicyKeepsCacheCoherent(s: Settings, updates: seq<Assignment>)
    requires WellFormedUpdates(updates)
    requires PolicyCacheCoherent(s)
    ensures UpdateRefreshingPolicy(s, updates).Success? ==> PolicyCacheCoherent(UpdateRefreshingPolicy(s, updates).value)
  {
    var r := UpdateRefreshingPolicy(s, updates);
    if r.Success? && r.value.retentionPolicy.Some? {
      var t := r.value;
      UntouchedFieldKept(s, updates, MaxBackupsField);
      assert t.maxBackups == s.maxBackups by {
        assert FieldValue(t, MaxBackupsField) == FieldValue(s, MaxBackupsField);
      }
      RetentionUntouched(s, updates);
    }
  }

  /** An update without retention keys keeps every retention count. */
  lemma RetentionUntouched(s: Settings, updates: seq<Assignment>)
    requires WellFormedUpdates(updates)
    requires !HasAnyKey(updates, RetentionKeys)
    ensures UpdateRefreshingPolicy(s, updates).Success? ==>
      UpdateRefreshingPolicy(s, updates).value.retention == s.retention
  {
    var r := UpdateRefreshingPolicy(s, updates);
    if r.Success? {
      RetentionFieldUntouched(s, updates, Yearly);
      RetentionFieldUntouched(s, updates, Monthly);
      RetentionFieldUntouched(s, updates, Weekly);
      RetentionFieldUntouched(s, updates, Daily);
      RetentionFieldUntouched(s, updates, Hourly);
      RetentionFieldUntouched(s, updates, Minutely);
      SameCountsSameRecord(r.value.retention, s.retention);
    }
  }

  /** An update without retention keys keeps the count of period `u`. */
  lemma RetentionFieldUntouched(s: Settings, updates: seq<Assignment>, u: TimeUnit)
    requires WellFormedUpdates(updates)
    requires !HasAnyKey(updates, RetentionKeys)
    ensures UpdateRefreshingPolicy(s, updates).Success? ==>
      CountFor(UpdateRefreshingPolicy(s, updates).value.retention, u) == CountFor(s.retention, u)
  {
    var key := KeyOf(RetentionField(u));
    assert !HasKey(updates, key) by {
      assert key in RetentionKeys;
      assert forall i :: 0 <= i < |updates| ==> updates[i].key !in RetentionKeys;
    }
    var r := UpdateRefreshingPolicy(s, updates);
    if r.Success? {
      UntouchedFieldKept(s, updates, RetentionField(u));
      SameRetentionValue(r.value, s, u);
    }
  }

  /** Equal field values of a retention field mean equal counts. */
  lemma SameRetentionValue(a: Settings, b: Settings, u: TimeUnit)
    requires FieldValue(a, RetentionField(u)) == FieldValue(b, RetentionField(u))
    ensures CountFor(a.retention, u) == CountFor(b.retention, u)
  {
  }

  /** Retention records that agree on every period are equal. */
  lemma SameCountsSameRecord(a: RetentionCounts, b: RetentionCounts)
    requires CountFor(a, Yearly) == CountFor(b, Yearly) && CountFor(a, Monthly) == CountFor(b, Monthly)
    requires CountFor(a, Weekly) == CountFor(b, Weekly) && CountFor(a, Daily) == CountFor(b, Daily)
    requires CountFor(a, Hourly) == CountFor(b, Hourly) && CountFor(a, Minutely) == CountFor(b, Minutely)
    ensures a == b
  {
  }
}

=== FILE: include_filter.dfy ===
/** `_include_file_in_backup` (src/ezbak/controllers/backup_manager.py): which
    source files go into an archive. Regular-expression search is a parameter. */
module IncludeFilter {
  import opened Outcomes

  /** A candidate file: its full path, its base name, and whether it is a symlink. */
  datatype SourceFile = SourceFile(path: string, name: string, isSymlink: bool)

  /** The filter settings: optional include and exclude patterns and the
      filenames that are never archived. */
  datatype FilterSettings = FilterSettings(includeRegex: Option<string>, excludeRegex: Option<string>, alwaysExclude: set<string>)

  /** Why a file is kept out, or that it is archived. */
  datatype Verdict = Included | SkippedSymlink | AlwaysExcluded | NotMatchedByInclude | MatchedByExclude

  /** The checks in the source's order; `search(pattern, text)` is `re.search`
      finding a match. */
  function Classify(f: SourceFile, cfg: FilterSettings, search: (string, string) -> bool): (v: Verdict)
    ensures v == SkippedSymlink <==> f.isSymlink
    ensures v == AlwaysExcluded <==> !f.isSymlink && f.name in cfg.alwaysExclude
    ensures v == NotMatchedByInclude <==>
      !f.isSymlink && f.name !in cfg.alwaysExclude && Filled(cfg.includeRegex) && !search(cfg.includeRegex.value, f.path)
    ensures v == MatchedByExclude ==> Filled(cfg.excludeRegex) && search(cfg.excludeRegex.value, f.path)
  {
    if f.isSymlink then SkippedSymlink
    else if f.name in cfg.alwaysExclude then AlwaysExcluded
    else if Filled(cfg.includeRegex) && !search(cfg.includeRegex.value, f.path) then NotMatchedByInclude
    else if Filled(cfg.excludeRegex) && search(cfg.excludeRegex.value, f.path) then MatchedByExclude
    else Included
  }

  /** The file is archived exactly when it is no symlink, its name is not
      always excluded, the include pattern (if any) matches and the exclude
      pattern (if any) does not. */
  function IncludeFileInBackup(f: SourceFile, cfg: FilterSettings, search: (string, string) -> bool): (keep: bool)
    ensures keep <==>
      && !f.isSymlink
      && f.name !in cfg.alwaysExclude
      && (!Filled(cfg.includeRegex) || search(cfg.includeRegex.value, f.path))
      && !(Filled(cfg.excludeRegex) && search(cfg.excludeRegex.value, f.path))
  {
    Classify(f, cfg, search) == Included
  }

  /** An exclude match wins over an include match. */
  lemma ExcludeWinsOverInclude(f: SourceFile, cfg: FilterSettings, search: (string, string) -> bool)
    requires Filled(cfg.excludeRegex) && search(cfg.excludeRegex.value, f.path)
    ensures !IncludeFileInBackup(f, cfg, search)
    ensures !f.isSymlink && f.name !in cfg.alwaysExclude && (!Filled(cfg.includeRegex) || search(cfg.includeRegex.value, f.path))
      ==> Classify(f, cfg, search) == MatchedByExclude
  {
  }
}

=== FILE: outcomes.dfy ===
/** Optional values and results with an error, standing in for Python's `None` and raised exceptions. */
module Outcomes {

  /** A value that may be absent (Python's `x | None`). */
  datatype Option<+T> = None | Some(value: T)

  /** The value of an operation that either succeeds or raises. */
  datatype Result<+T, +E> = Success(value: T) | Failure(error: E)

  /** Python truthiness of an optional string or list: present and non-empty. */
  predicate Filled<T>(o: Option<seq<T>>)
  {
    o.Some? && |o.value| > 0
  }
}

=== FILE: prune.dfy ===
/** Which backups `prune_backups` deletes, what delete calls it then issues,
    and `get_latest_backup` (src/ezbak/controllers/backup_manager.py). */
module Prune {
  import opened Outcomes
  import opened Sequences
  import opened Backups
  import opened Config
  import AwsKeys

  // ---------------------------------------------------------- one retention slice

  /** `list(reversed(backups))[keep:]`, taken only when the list holds more
      than `keep` backups: the backups past the `keep` newest, newest first. */
  function DropNewest(backups: seq<Backup>, keep: nat): (deleted: seq<Backup>)
    ensures |backups| <= keep ==> deleted == []
    ensures |backups| > keep ==> |deleted| == |backups| - keep
    ensures forall i :: 0 <= i < |deleted| ==> deleted[i] == backups[|backups| - keep - 1 - i]
  {
    if |backups| > keep then Reverse(backups)[keep..] else []
  }

  /** The backups a slice leaves in place. */
  function KeptNewest(backups: seq<Backup>, keep: nat): (kept: seq<Backup>)
    ensures |kept| == if |backups| <= keep then |backups| else keep
    ensures kept == backups[|backups| - |kept|..]
  {
    if |backups| > keep then backups[|backups| - keep..] else backups
  }

  /** Deleted and kept backups together are exactly the list. */
  lemma {:induction false} DropNewestPartition(backups: seq<Backup>, keep: nat)
    ensures multiset(DropNewest(backups, keep)) + multiset(KeptNewest(backups, keep)) == multiset(backups)
  {
    if |backups| > keep {
      var cut := |backups| - keep;
      var older := backups[..cut];
      ReverseDrop(backups, keep);
      ReversePermutes(older);
      assert KeptNewest(backups, keep) == backups[cut..];
      assert backups == older + backups[cut..];
    }
  }

  /** On a list kept oldest first, no deleted backup is newer than a kept one,
      and the kept ones are the newest `keep` of the list. */
  lemma DropNewestKeepsNewest(backups: seq<Backup>, keep: nat)
    requires OldestFirst(backups)
    ensures forall d, k :: d in DropNewest(backups, keep) && k in KeptNewest(backups, keep) ==> d.timestamp <= k.timestamp
    ensures |backups| > keep ==> KeptNewest(backups, keep) == backups[|backups| - keep..]
  {
    var deleted := DropNewest(backups, keep);
    var kept := KeptNewest(backups, keep);
    var cut := |backups| - |kept|;
    forall d, k | d in deleted && k in kept
      ensures d.timestamp <= k.timestamp
    {
      var i :| 0 <= i < |deleted| && deleted[i] == d;
      var j :| 0 <= j < |kept| && kept[j] == k;
      assert kept[j] == backups[cut + j];
    }
  }

  // ---------------------------------------------------------- per location

  /** The deletions of the time-based branch for one location: each unit's
      list sliced by that unit's own count. */
  function DropPerUnit(units: seq<UnitBackups>, keepFor: TimeUnit -> nat): (deleted: seq<Backup>)
    ensures |deleted| == UnitExcessTotal(units, keepFor)
  {
    if units == [] then []
    else DropNewest(units[0].backups, keepFor(units[0].unit)) + DropPerUnit(units[1..], keepFor)
  }

  /** A backup is deleted exactly when its own unit list's slice deletes it. */
  lemma {:induction false} DropPerUnitMembers(units: seq<UnitBackups>, keepFor: TimeUnit -> nat, b: Backup)
    ensures b in DropPerUnit(units, keepFor) <==>
      exists j :: 0 <= j < |units| && b in DropNewest(units[j].backups, keepFor(units[j].unit))
  {
    if units != [] {
      var rest := units[1..];
      var tail := DropPerUnit(rest, keepFor);
      assert DropPerUnit(units, keepFor) == DropNewest(units[0].backups, keepFor(units[0].unit)) + tail;
      DropPerUnitMembers(rest, keepFor, b);
      if b in tail {
        var k :| 0 <= k < |rest| && b in DropNewest(rest[k].backups, keepFor(rest[k].unit));
        assert rest[k] == units[k + 1];
      }
      if exists j :: 1 <= j < |units| && b in DropNewest(units[j].backups, keepFor(units[j].unit)) {
        var j :| 1 <= j < |units| && b in DropNewest(units[j].backups, keepFor(units[j].unit));
        assert rest[j - 1] == units[j];
      }
    }
  }

  /** Deletions come only from unit lists longer than their unit's count. */
  lemma DropPerUnitOnlyOverfull(units: seq<UnitBackups>, keepFor: TimeUnit -> nat, b: Backup)
    requires b in DropPerUnit(units, keepFor)
    ensures exists j :: 0 <= j < |units| && |units[j].backups| > keepFor(units[j].unit) && b in units[j].backups
  {
    DropPerUnitMembers(units, keepFor, b);
    var j :| 0 <= j < |units| && b in DropNewest(units[j].backups, keepFor(units[j].unit));
    var d := DropNewest(units[j].backups, keepFor(units[j].unit));
    var i :| 0 <= i < |d| && d[i] == b;
    assert b in units[j].backups;
  }

  /** The deletions for one location under the resolved policy. `keepFor`
      stands for the policy manager's per-unit count. */
  function PruneLocation(loc: StorageLocation, policy: RetentionPolicy, keepFor: TimeUnit -> nat): (deleted: seq<Backup>)
    ensures policy.KeepAll? ==> deleted == []
    ensures policy.CountBased? ==> |deleted| == Excess(|loc.backups|, policy.maxKeep)
    ensures policy.TimeBased? ==> |deleted| == UnitExcessTotal(loc.byUnit, keepFor)
  {
    match policy
    case KeepAll => []
    case CountBased(maxKeep) => DropNewest(loc.backups, maxKeep)
    case TimeBased(_) => DropPerUnit(loc.byUnit, keepFor)
  }

  // ---------------------------------------------------------- all locations

  /** The list `prune_backups` builds: the deletions of every location, in
      location order; keep-all returns at once with nothing. */
  function PruneSelection(locations: seq<StorageLocation>, policy: RetentionPolicy, keepFor: TimeUnit -> nat): (deleted: seq<Backup>)
    ensures policy.KeepAll? ==> deleted == []
    ensures policy.CountBased? ==> |deleted| == ExcessTotal(locations, policy.maxKeep)
  {
    if policy.KeepAll? || locations == [] then []
    else PruneLocation(locations[0], policy, keepFor) + PruneSelection(locations[1..], policy, keepFor)
  }

  /** A backup is selected exactly when the rule of some location selects it. */
  lemma PruneSelectionMembers(locations: seq<StorageLocation>, policy: RetentionPolicy, keepFor: TimeUnit -> nat, b: Backup)
    ensures b in PruneSelection(locations, policy, keepFor) <==>
      exists i :: 0 <= i < |locations| && b in PruneLocation(locations[i], policy, keepFor)
  {
    if policy.KeepAll? {
      assert forall i :: 0 <= i < |locations| ==> PruneLocation(locations[i], policy, keepFor) == [];
    } else {
      SelectionMembers(locations, policy, keepFor, b);
    }
  }

  lemma {:induction false} SelectionMembers(locations: seq<StorageLocation>, policy: RetentionPolicy, keepFor: TimeUnit -> nat, b: Backup)
    requires !policy.KeepAll?
    ensures b in PruneSelection(locations, policy, keepFor) <==>
      exists i :: 0 <= i < |locations| && b in PruneLocation(locations[i], policy, keepFor)
  {
    if locations != [] {
      var rest := locations[1..];
      var tail := PruneSelection(rest, policy, keepFor);
      assert PruneSelection(locations, policy, keepFor) == PruneLocation(locations[0], policy, keepFor) + tail;
      SelectionMembers(rest, policy, keepFor, b);
      if b in tail {
        var k :| 0 <= k < |rest| && b in PruneLocation(rest[k], policy, keepFor);
        assert rest[k] == locations[k + 1];
      }
      if exists i :: 1 <= i < |locations| && b in PruneLocation(locations[i], policy, keepFor) {
        var i :| 1 <= i < |locations| && b in PruneLocation(locations[i], policy, keepFor);
        assert rest[i - 1] == locations[i];
      }
    }
  }

  /** How many backups the count-based rule removes over all locations: the
      excess of each location's list over `maxKeep`. */
  function ExcessTotal(locations: seq<StorageLocation>, maxKeep: nat): nat
  {
    if locations == [] then 0
    else Excess(|locations[0].backups|, maxKeep) + ExcessTotal(locations[1..], maxKeep)
  }

  /** How far a list of `n` backups exceeds a count of `keep`. */
  function Excess(n: nat, keep: nat): nat
  {
    if n > keep then n - keep else 0
  }

  /** How many backups the time-based rule removes from one location: the
      excess of each unit list over its unit's count. */
  function UnitExcessTotal(units: seq<UnitBackups>, keepFor: TimeUnit -> nat): nat
  {
    if units == [] then 0
    else Excess(|units[0].backups|, keepFor(units[0].unit)) + UnitExcessTotal(units[1..], keepFor)
  }

  // ---------------------------------------------------------- delete calls

  /** The backups of one storage type, in order. */
  function OfStorage(backups: seq<Backup>, t: StorageType): (r: seq<Backup>)
    ensures |r| <= |backups|
    ensures forall b :: b in r <==> b in backups && b.storage == t
  {
    if backups == [] then []
    else (if backups[0].storage == t then [backups[0]] else []) + OfStorage(backups[1..], t)
  }

  /** The filter keeps every entry of the type as often as it occurs, and no
      other entry, so its length is the number of such entries. */
  lemma {:induction false} OfStorageCounts(backups: seq<Backup>, t: StorageType, b: Backup)
    ensures multiset(OfStorage(backups, t))[b] == if b.storage == t then multiset(backups)[b] else 0
  {
    if backups != [] {
      var rest := backups[1..];
      var head := if backups[0].storage == t then [backups[0]] else [];
      OfStorageCounts(rest, t, b);
      assert multiset(OfStorage(backups, t)) == multiset(head) + multiset(OfStorage(rest, t));
      assert multiset(backups) == multiset([backups[0]]) + multiset(rest) by {
        assert backups == [backups[0]] + rest;
      }
    }
  }

  function Names(backups: seq<Backup>): (names: seq<string>)
    ensures |names| == |backups|
    ensures forall i :: 0 <= i < |backups| ==> names[i] == backups[i].name
  {
    seq(|backups|, i requires 0 <= i < |backups| => backups[i].name)
  }

  /** What a prune run does: the deletions it selects, the local files it
      unlinks one by one, and the single S3 batch delete, if any. */
  datatype PruneRun = PruneRun(deleted: seq<Backup>, localDeletes: seq<Backup>, awsDelete: Option<AwsKeys.DeleteCall>)

  function PruneBackups(locations: seq<StorageLocation>, policy: RetentionPolicy, keepFor: TimeUnit -> nat, bucketPath: string): (run: PruneRun)
    ensures run.deleted == PruneSelection(locations, policy, keepFor)
    ensures forall b :: b in run.deleted <==>
      exists i :: 0 <= i < |locations| && b in PruneLocation(locations[i], policy, keepFor)
    ensures forall b :: b in run.localDeletes <==> b in run.deleted && b.storage == Local
    ensures forall b :: multiset(run.localDeletes)[b] == if b.storage == Local then multiset(run.deleted)[b] else 0
    ensures run.awsDelete.Some? <==> exists b :: b in run.deleted && b.storage == Aws
    ensures run.awsDelete.Some? ==> !run.awsDelete.value.NothingToDelete?
    ensures run.awsDelete.Some? ==> run.awsDelete.value == AwsKeys.DeleteObjects(bucketPath, Names(OfStorage(run.deleted, Aws)))
    ensures run.awsDelete.Some? && run.awsDelete.value.Request? ==>
      forall b :: b in run.deleted && b.storage == Aws ==> AwsKeys.BuildFullKey(bucketPath, b.name) in run.awsDelete.value.fullKeys
    ensures run.awsDelete.Some? && run.awsDelete.value.Request? ==>
      forall k :: k in run.awsDelete.value.fullKeys ==>
        exists b :: b in run.deleted && b.storage == Aws && k == AwsKeys.BuildFullKey(bucketPath, b.name)
    ensures run.awsDelete.Some? && run.awsDelete.value.TooManyKeys? <==> |OfStorage(run.deleted, Aws)| > AwsKeys.MaxDeleteBatch
    ensures policy.KeepAll? ==> run.deleted == [] && run.localDeletes == [] && run.awsDelete.None?
  {
    var deleted := PruneSelection(locations, policy, keepFor);
    var aws := OfStorage(deleted, Aws);
    assert forall b :: b in deleted <==> exists i :: 0 <= i < |locations| && b in PruneLocation(locations[i], policy, keepFor) by {
      forall b ensures b in deleted <==> exists i :: 0 <= i < |locations| && b in PruneLocation(locations[i], policy, keepFor) {
        PruneSelectionMembers(locations, policy, keepFor, b);
      }
    }
    forall b ensures multiset(OfStorage(deleted, Local))[b] == if b.storage == Local then multiset(deleted)[b] else 0 {
      OfStorageCounts(deleted, Local, b);
    }
    AwsBatchCoversAwsDeletions(deleted, bucketPath);
    AwsBatchNamesOnlyAwsDeletions(deleted, bucketPath);
    PruneRun(deleted, OfStorage(deleted, Local), if |aws| > 0 then Some(AwsKeys.DeleteObjects(bucketPath, Names(aws))) else None)
  }

  /** The S3 batch is sent exactly when some deletion lives in S3; it is
      refused exactly when more than the batch limit live there; otherwise it
      names every such backup under the bucket path. */
  lemma AwsBatchCoversAwsDeletions(deleted: seq<Backup>, bucketPath: string)
    ensures var aws := OfStorage(deleted, Aws);
      && (|aws| > 0 <==> exists b :: b in deleted && b.storage == Aws)
      && (var call := AwsKeys.DeleteObjects(bucketPath, Names(aws));
          && (call.TooManyKeys? <==> |aws| > AwsKeys.MaxDeleteBatch)
          && (call.Request? ==> forall b :: b in deleted && b.storage == Aws ==> AwsKeys.BuildFullKey(bucketPath, b.name) in call.fullKeys))
  {
    var aws := OfStorage(deleted, Aws);
    if exists b :: b in deleted && b.storage == Aws {
      var b :| b in deleted && b.storage == Aws;
      assert b in aws;
    }
    var call := AwsKeys.DeleteObjects(bucketPath, Names(aws));
    if call.Request? {
      forall b | b in deleted && b.storage == Aws
        ensures AwsKeys.BuildFullKey(bucketPath, b.name) in call.fullKeys
      {
        var i :| 0 <= i < |aws| && aws[i] == b;
        assert call.fullKeys[i] == AwsKeys.BuildFullKey(bucketPath, Names(aws)[i]);
      }
    }
  }

  /** Every key of the S3 batch is the full key of a selected S3 backup: the
      batch deletes no other object. */
  lemma AwsBatchNamesOnlyAwsDeletions(deleted: seq<Backup>, bucketPath: string)
    ensures var call := AwsKeys.DeleteObjects(bucketPath, Names(OfStorage(deleted, Aws)));
      call.Request? ==> forall k :: k in call.fullKeys ==>
        exists b :: b in deleted && b.storage == Aws && k == AwsKeys.BuildFullKey(bucketPath, b.name)
  {
    var aws := OfStorage(deleted, Aws);
    var call := AwsKeys.DeleteObjects(bucketPath, Names(aws));
    if call.Request? {
      forall k | k in call.fullKeys
        ensures exists b :: b in deleted && b.storage == Aws && k == AwsKeys.BuildFullKey(bucketPath, b.name)
      {
        var i :| 0 <= i < |call.fullKeys| && call.fullKeys[i] == k;
        assert aws[i] in aws;
        assert k == AwsKeys.BuildFullKey(bucketPath, aws[i].name);
      }
    }
  }

  // ---------------------------------------------------------- latest backup

  /** `get_latest_backup`: None when no location has a backup; otherwise the
      first backup, in listing order, with the greatest timestamp (Python's
      `max` keeps the first maximum). */
  method GetLatestBackup(locations: seq<StorageLocation>) returns (latest: Option<Backup>)
    ensures latest.None? <==> forall i :: 0 <= i < |locations| ==> locations[i].backups == []
    ensures latest.Some? ==> latest.value in AllBackups(locations)
    ensures latest.Some? ==> forall b :: b in AllBackups(locations) ==> b.timestamp <= latest.value.timestamp
    ensures latest.Some? ==>
      exists k :: && 0 <= k < |AllBackups(locations)|
                  && AllBackups(locations)[k] == latest.value
                  && forall j :: 0 <= j < k ==> AllBackups(locations)[j].timestamp < latest.value.timestamp
  {
    var all := AllBackups(locations);
    AllBackupsEmpty(locations);
    if all == [] {
      return None;
    }
    var best := 0;
    var i := 1;
    while i < |all|
      invariant 0 <= best < i <= |all|
      invariant forall j :: 0 <= j < i ==> all[j].timestamp <= all[best].timestamp
      invariant forall j :: 0 <= j < best ==> all[j].timestamp < all[best].timestamp
    {
      if all[i].timestamp > all[best].timestamp {
        best := i;
      }
      i := i + 1;
    }
    latest := Some(all[best]);
  }
}

=== FILE: pystr.dfy ===
/** The Python string operations the backup manager and the S3 service use, with their exact semantics. */
module PyStr {

  /** `sub` occurs somewhere inside `s` (Python's `sub in s`). */
  predicate Occurs(sub: string, s: string)
    decreases |s|
  {
    sub <= s || (|s| > 0 && Occurs(sub, s[1..]))
  }

  /** Python's `s.rstrip(chars)`: removes trailing characters that belong to the
      character SET `chars`, not a suffix. */
  function RStrip(s: string, chars: set<char>): (r: string)
    ensures r <= s
    ensures |r| == 0 || r[|r| - 1] !in chars
    ensures forall i :: |r| <= i < |s| ==> s[i] in chars
    decreases |s|
  {
    if |s| > 0 && s[|s| - 1] in chars then RStrip(s[..|s| - 1], chars) else s
  }

  /** Python's `s.replace(pattern, repl)` for a non-empty `pattern`: every leftmost,
      non-overlapping occurrence is replaced. `re.sub` with a pattern free of
      metacharacters behaves the same. */
  function Replace(s: string, pattern: string, repl: string): (r: string)
    requires |pattern| > 0
    ensures !Occurs(pattern, s) ==> r == s
    ensures repl == [] ==> |r| <= |s|
    ensures repl == [] && Occurs(pattern, s) ==> |r| < |s|
    decreases |s|
  {
    if s == [] then []
    else if pattern <= s then repl + Replace(s[|pattern|..], pattern, repl)
    else [s[0]] + Replace(s[1..], pattern, repl)
  }

  /** Stripping a character set from `stem + tail` gives back `stem` exactly
      when the tail consists of stripped characters and the stem does not end
      in one. */
  lemma {:induction false} RStripRemovesSuffix(stem: string, tail: string, chars: set<char>)
    requires |stem| > 0 && stem[|stem| - 1] !in chars
    requires forall i :: 0 <= i < |tail| ==> tail[i] in chars
    ensures RStrip(stem + tail, chars) == stem
  {
    var s := stem + tail;
    var r := RStrip(s, chars);
    assert s[|stem| - 1] !in chars;
    assert forall i :: |stem| <= i < |s| ==> s[i] in chars;
    assert |r| == |stem|;
    assert r == s[..|r|] == stem;
  }

  /** A leading occurrence of `pattern` is removed, and the rest is processed as usual. */
  lemma ReplaceLeading(pattern: string, rest: string)
    requires |pattern| > 0
    ensures Replace(pattern + rest, pattern, []) == Replace(rest, pattern, [])
  {
    assert pattern <= pattern + rest;
    assert (pattern + rest)[|pattern|..] == rest;
  }

  /** Where the text does not start like the pattern, its first character is kept. */
  lemma ReplaceSkip(s: string, pattern: string, repl: string)
    requires |pattern| > 0 && |s| > 0 && s[0] != pattern[0]
    ensures Replace(s, pattern, repl) == [s[0]] + Replace(s[1..], pattern, repl)
  {
    assert !(pattern <= s);
  }
}

=== FILE: rename.dfy ===
/** Rename planning of `rename_backups` (src/ezbak/controllers/backup_manager.py):
    the target name of every backup with and without time-unit labels, and
    the ordered pass that gives duplicate targets a uid suffix. The filename
    pattern is an abstract parse and `new_uid` an oracle. */
module Rename {
  import opened Outcomes
  import opened PyStr
  import opened Backups

  /** The named groups of the filename pattern's match on a backup name. */
  datatype NameParts = NameParts(name: string, timestamp: string, period: Option<string>, uid: Option<string>)

  /** One backup with its target name and whether it is to be renamed. */
  datatype RenameEntry = RenameEntry(backup: Backup, newName: string, doRename: bool)

  // ---------------------------------------------------------- without labels

  /** `re.sub("-" + part, "", name)`: removes every occurrence of the dash and
      the group's text, when the group matched. */
  function WithoutPart(name: string, part: Option<string>): (r: string)
    ensures |r| <= |name|
    ensures Filled(part) && Occurs("-" + part.value, name) ==> |r| < |name|
    ensures !(Filled(part) && Occurs("-" + part.value, name)) ==> r == name
  {
    if Filled(part) then Replace(name, "-" + part.value, "") else name
  }

  /** `_rename_no_labels` for one backup: the period label and the uid are
      taken out of the name. */
  function PlanWithoutLabel(b: Backup, parts: NameParts): (e: RenameEntry)
    ensures e.backup == b
    ensures |e.newName| <= |b.name|
    ensures e.doRename <==> e.newName != b.name
    ensures e.doRename <==> |e.newName| < |b.name|
    ensures !Filled(parts.period) && !Filled(parts.uid) ==> !e.doRename
    ensures Filled(parts.period) && Occurs("-" + parts.period.value, b.name) ==> e.doRename
  {
    var newName := WithoutPart(WithoutPart(b.name, parts.period), parts.uid);
    RenameEntry(b, newName, b.name != newName)
  }

  /** `_rename_no_labels`: one entry per backup of every location, in listing order. */
  function RenameNoLabels(locations: seq<StorageLocation>, parse: string -> NameParts): (plan: seq<RenameEntry>)
    ensures |plan| == |AllBackups(locations)|
    ensures forall i :: 0 <= i < |plan| ==> plan[i].backup == AllBackups(locations)[i]
    ensures forall i :: 0 <= i < |plan| ==> (plan[i].doRename <==> plan[i].newName != plan[i].backup.name)
    ensures forall i :: 0 <= i < |plan| ==> plan[i] == PlanWithoutLabel(plan[i].backup, parse(plan[i].backup.name))
  {
    var all := AllBackups(locations);
    var plan := seq(|all|, i requires 0 <= i < |all| => PlanWithoutLabel(all[i], parse(all[i].name)));
    assert forall i :: 0 <= i < |plan| ==> plan[i].backup == all[i] && (plan[i].doRename <==> plan[i].newName != plan[i].backup.name) by {
      forall i | 0 <= i < |plan|
        ensures plan[i].backup == all[i] && (plan[i].doRename <==> plan[i].newName != plan[i].backup.name)
      {
        var e := PlanWithoutLabel(all[i], parse(all[i].name));
        assert plan[i] == e;
      }
    }
    plan
  }

  // ---------------------------------------------------------- with labels

  /** The canonical labelled name `{name}-{timestamp}-{label}.tgz`. */
  function LabelledName(parts: NameParts, u: TimeUnit): (r: string)
    ensures parts.name <= r
    ensures |r| >= 4 && r[|r| - 4..] == ".tgz"
  {
    parts.name + "-" + parts.timestamp + "-" + Label(u) + "." + Extension
  }

  /** `_rename_with_labels` for one backup listed under unit `u`: a backup that
      already carries `u`'s label keeps its name; any other gets the labelled
      name, even when that equals its current one. */
  function PlanWithLabel(b: Backup, u: TimeUnit, parts: NameParts): (e: RenameEntry)
    ensures e.backup == b
    ensures !e.doRename <==> parts.period == Some(Label(u))
    ensures !e.doRename ==> e.newName == b.name
    ensures e.doRename ==> e.newName == LabelledName(parts, u)
  {
    if Filled(parts.period) && parts.period.value == Label(u) then RenameEntry(b, b.name, false)
    else RenameEntry(b, LabelledName(parts, u), true)
  }

  /** `_rename_with_labels`: one entry per backup of every unit list of every location. */
  function RenameWithLabels(locations: seq<StorageLocation>, parse: string -> NameParts): (plan: seq<RenameEntry>)
    ensures |plan| == |UnitMembers(locations)|
    ensures forall i :: 0 <= i < |plan| ==> plan[i].backup == UnitMembers(locations)[i].1
    ensures forall i :: 0 <= i < |plan| ==>
      (!plan[i].doRename <==> parse(plan[i].backup.name).period == Some(Label(UnitMembers(locations)[i].0)))
    ensures forall i :: 0 <= i < |plan| && plan[i].doRename ==>
      plan[i].newName == LabelledName(parse(plan[i].backup.name), UnitMembers(locations)[i].0)
    ensures forall i :: 0 <= i < |plan| && !plan[i].doRename ==> plan[i].newName == plan[i].backup.name
  {
    var pairs := UnitMembers(locations);
    var plan := seq(|pairs|, i requires 0 <= i < |pairs| => PlanWithLabel(pairs[i].1, pairs[i].0, parse(pairs[i].1.name)));
    assert forall i :: 0 <= i < |plan| ==> plan[i].backup == pairs[i].1 && (!plan[i].doRename ==> plan[i].newName == pairs[i].1.name) by {
      forall i | 0 <= i < |plan|
        ensures plan[i].backup == pairs[i].1 && (!plan[i].doRename ==> plan[i].newName == pairs[i].1.name)
      {
        var e := PlanWithLabel(pairs[i].1, pairs[i].0, parse(pairs[i].1.name));
        assert plan[i] == e;
      }
    }
    plan
  }

  /** The plan `rename_backups` starts from, chosen by the labelling setting. */
  function RenamePlan(labelTimeUnits: bool, locations: seq<StorageLocation>, parse: string -> NameParts): (plan: seq<RenameEntry>)
    ensures labelTimeUnits ==> |plan| == |UnitMembers(locations)|
    ensures !labelTimeUnits ==> |plan| == |AllBackups(locations)|
    ensures plan == if labelTimeUnits then RenameWithLabels(locations, parse) else RenameNoLabels(locations, parse)
  {
    if labelTimeUnits then RenameWithLabels(locations, parse) else RenameNoLabels(locations, parse)
  }

  // ---------------------------------------------------------- collision pass

  /** The characters of ".tgz", which `str.rstrip` removes as a set. */
  const ExtensionChars: set<char> := set c | c in "." + Extension

  /** `f"{target.rstrip('.tgz')}-{uid}.tgz"`. */
  function WithUid(target: string, uid: string): (r: string)
    ensures |r| >= 4 && r[|r| - 4..] == ".tgz"
    ensures RStrip(target, ExtensionChars) <= r
  {
    RStrip(target, ExtensionChars) + "-" + uid + "." + Extension
  }

  /** For a canonical labelled target the strip removes exactly ".tgz", since
      every label ends in 'y'. */
  lemma LabelledWithUid(parts: NameParts, u: TimeUnit, uid: string)
    ensures WithUid(LabelledName(parts, u), uid) == parts.name + "-" + parts.timestamp + "-" + Label(u) + "-" + uid + "." + Extension
  {
    var stem := parts.name + "-" + parts.timestamp + "-" + Label(u);
    assert stem[|stem| - 1] == 'y';
    assert LabelledName(parts, u) == stem + ".tgz";
    RStripRemovesSuffix(stem, ".tgz", ExtensionChars);
  }

  /** The strip takes characters, not a suffix: "db-test.tgz" loses "t" too. */
  lemma RStripTakesCharacters()
    ensures WithUid("db-test.tgz", "a1") == "db-tes-a1.tgz"
  {
    assert 's' !in ExtensionChars;
    RStripRemovesSuffix("db-tes", "t.tgz", ExtensionChars);
    assert "db-tes" + "t.tgz" == "db-test.tgz";
  }

  /** How many entries currently target `t`. */
  function CountTarget(entries: seq<RenameEntry>, t: string): (n: nat)
    ensures n <= |entries|
  {
    if entries == [] then 0
    else (if entries[0].newName == t then 1 else 0) + CountTarget(entries[1..], t)
  }

  /** Entry `i` as the pass leaves it, given the list as it is when the pass reaches it. */
  function Resolved(state: seq<RenameEntry>, i: nat, uid: string): (e: RenameEntry)
    requires i < |state|
    ensures e.backup == state[i].backup && e.doRename == state[i].doRename
    ensures e.newName != state[i].newName ==> state[i].doRename && CountTarget(state, state[i].newName) > 1
  {
    var e := state[i];
    if e.doRename && CountTarget(state, e.newName) > 1 then e.(newName := WithUid(e.newName, uid)) else e
  }

  /** `out` is the result of the pass over `plan`: each entry is resolved
      against the list as it stands when reached, with the earlier entries
      already updated and the later ones still as planned. */
  ghost predicate IsCollisionPass(plan: seq<RenameEntry>, uidFor: nat -> string, out: seq<RenameEntry>)
  {
    && |out| == |plan|
    && forall i :: 0 <= i < |plan| ==> out[i] == Resolved(out[..i] + plan[i..], i, uidFor(i))
  }

  /** The loop of `rename_backups`. `uidFor(i)` is the uid drawn when entry `i`
      gets a suffix. */
  method ResolveCollisions(plan: seq<RenameEntry>, uidFor: nat -> string) returns (out: seq<RenameEntry>)
    ensures IsCollisionPass(plan, uidFor, out)
    ensures forall i :: 0 <= i < |plan| ==> out[i].backup == plan[i].backup && out[i].doRename == plan[i].doRename
    ensures forall i :: 0 <= i < |plan| && !plan[i].doRename ==> out[i] == plan[i]
    ensures forall i :: 0 <= i < |plan| ==>
      out[i].newName == plan[i].newName || out[i].newName == WithUid(plan[i].newName, uidFor(i))
  {
    out := plan;
    var i := 0;
    while i < |plan|
      invariant 0 <= i <= |plan|
      invariant |out| == |plan|
      invariant out[i..] == plan[i..]
      invariant forall j :: 0 <= j < i ==> out[j] == Resolved(out[..j] + plan[j..], j, uidFor(j))
    {
      var before := out;
      assert before == before[..i] + plan[i..];
      var e := out[i];
      if e.doRename && CountTarget(out, e.newName) > 1 {
        out := out[i := e.(newName := WithUid(e.newName, uidFor(i)))];
      }
      assert forall j :: 0 <= j <= i ==> out[..j] == before[..j];
      i := i + 1;
    }
    forall j | 0 <= j < |plan|
      ensures out[j].backup == plan[j].backup && out[j].doRename == plan[j].doRename
      ensures !plan[j].doRename ==> out[j] == plan[j]
      ensures out[j].newName == plan[j].newName || out[j].newName == WithUid(plan[j].newName, uidFor(j))
    {
      PassEntry(plan, uidFor, out, j);
    }
  }

  // ---------------------------------------------------------- counting lemmas

  lemma {:induction false} CountNone(s: seq<RenameEntry>, t: string)
    requires forall j :: 0 <= j < |s| ==> s[j].newName != t
    ensures CountTarget(s, t) == 0
  {
    if s != [] {
      CountNone(s[1..], t);
    }
  }

  lemma {:induction false} CountSome(s: seq<RenameEntry>, t: string, k: nat)
    requires k < |s| && s[k].newName == t
    ensures CountTarget(s, t) >= 1
  {
    if k > 0 {
      CountSome(s[1..], t, k - 1);
    }
  }

  lemma {:induction false} CountTwo(s: seq<RenameEntry>, t: string, i: nat, k: nat)
    requires i < k < |s| && s[i].newName == t && s[k].newName == t
    ensures CountTarget(s, t) >= 2
  {
    if i == 0 {
      CountSome(s[1..], t, k - 1);
    } else {
      CountTwo(s[1..], t, i - 1, k - 1);
    }
  }

  lemma {:induction false} CountOne(s: seq<RenameEntry>, t: string, i: nat)
    requires i < |s| && s[i].newName == t
    requires forall j :: 0 <= j < |s| && j != i ==> s[j].newName != t
    ensures CountTarget(s, t) == 1
  {
    if i == 0 {
      CountNone(s[1..], t);
    } else {
      CountOne(s[1..], t, i - 1);
    }
  }

  // ---------------------------------------------------------- what the pass achieves

  /** Entry `j` after the pass is its planned entry, possibly with the uid suffix,
      and the suffix is added exactly when it is to be renamed and another
      entry shares its target when it is reached. */
  lemma PassEntry(plan: seq<RenameEntry>, uidFor: nat -> string, out: seq<RenameEntry>, j: nat)
    requires IsCollisionPass(plan, uidFor, out) && j < |plan|
    ensures var state := out[..j] + plan[j..];
      && state[j] == plan[j]
      && out[j] == (if plan[j].doRename && CountTarget(state, plan[j].newName) > 1
                    then plan[j].(newName := WithUid(plan[j].newName, uidFor(j))) else plan[j])
  {
  }

  /** A duplicate target still shared by a later entry gets the uid suffix. */
  lemma SharedTargetGetsUid(plan: seq<RenameEntry>, uidFor: nat -> string, out: seq<RenameEntry>, i: nat, k: nat)
    requires IsCollisionPass(plan, uidFor, out)
    requires i < k < |plan| && plan[i].doRename && plan[k].newName == plan[i].newName
    ensures out[i].newName == WithUid(plan[i].newName, uidFor(i))
  {
    var state := out[..i] + plan[i..];
    PassEntry(plan, uidFor, out, i);
    assert state[k] == plan[k];
    CountTwo(state, plan[i].newName, i, k);
  }

  /** The last holder of a target keeps the plain name when every other holder
      came earlier and was renamed, and no uid suffix produced that name. */
  lemma LastHolderKeepsName(plan: seq<RenameEntry>, uidFor: nat -> string, out: seq<RenameEntry>, i: nat)
    requires IsCollisionPass(plan, uidFor, out)
    requires i < |plan| && plan[i].doRename
    requires forall j :: 0 <= j < |plan| && j != i && plan[j].newName == plan[i].newName ==> j < i && plan[j].doRename
    requires forall j :: 0 <= j < i ==> WithUid(plan[j].newName, uidFor(j)) != plan[i].newName
    ensures out[i] == plan[i]
  {
    var t := plan[i].newName;
    var state := out[..i] + plan[i..];
    forall j | 0 <= j < |state| && j != i
      ensures state[j].newName != t
    {
      if j < i {
        assert state[j] == out[j];
        PassEntry(plan, uidFor, out, j);
        if plan[j].newName == t {
          var sj := out[..j] + plan[j..];
          assert sj[i] == plan[i];
          CountTwo(sj, t, j, i);
        }
      } else {
        assert state[j] == plan[j];
      }
    }
    PassEntry(plan, uidFor, out, i);
    CountOne(state, t, i);
  }

  /** The uid oracle is fresh: no suffixed name equals a planned target or
      another suffixed name. */
  ghost predicate FreshUids(plan: seq<RenameEntry>, uidFor: nat -> string)
  {
    && (forall j, m :: 0 <= j < |plan| && 0 <= m < |plan| ==> WithUid(plan[j].newName, uidFor(j)) != plan[m].newName)
    && (forall j, m :: 0 <= j < m < |plan| ==> WithUid(plan[j].newName, uidFor(j)) != WithUid(plan[m].newName, uidFor(m)))
  }

  /** After the pass no two entries share a target, provided the uid oracle is
      fresh and the entries that are not renamed already had distinct names. */
  lemma PassLeavesDistinctTargets(plan: seq<RenameEntry>, uidFor: nat -> string, out: seq<RenameEntry>)
    requires IsCollisionPass(plan, uidFor, out)
    requires FreshUids(plan, uidFor)
    requires forall j, m :: 0 <= j < m < |plan| && !plan[j].doRename && !plan[m].doRename ==> plan[j].newName != plan[m].newName
    ensures forall i, k :: 0 <= i < k < |out| ==> out[i].newName != out[k].newName
  {
    forall i, k | 0 <= i < k < |out|
      ensures out[i].newName != out[k].newName
    {
      DistinctPair(plan, uidFor, out, i, k);
    }
  }

  lemma DistinctPair(plan: seq<RenameEntry>, uidFor: nat -> string, out: seq<RenameEntry>, i: nat, k: nat)
    requires IsCollisionPass(plan, uidFor, out)
    requires FreshUids(plan, uidFor)
    requires forall j, m :: 0 <= j < m < |plan| && !plan[j].doRename && !plan[m].doRename ==> plan[j].newName != plan[m].newName
    requires i < k < |plan|
    ensures out[i].newName != out[k].newName
  {
    PassEntry(plan, uidFor, out, i);
    PassEntry(plan, uidFor, out, k);
    var ui := WithUid(plan[i].newName, uidFor(i));
    var uk := WithUid(plan[k].newName, uidFor(k));
    if plan[i].doRename && plan[k].newName == plan[i].newName {
      SharedTargetGetsUid(plan, uidFor, out, i, k);
      assert out[i].newName == ui;
    } else if !plan[i].doRename && plan[k].doRename && plan[i].newName == plan[k].newName {
      var sk := out[..k] + plan[k..];
      assert sk[i] == out[i] && sk[k] == plan[k];
      CountTwo(sk, plan[k].newName, i, k);
      assert out[k].newName == uk;
    }
  }
}

=== FILE: sequences.dfy ===
/** Generic sequence helpers. */
module Sequences {

  /** The elements of `s` last to first, as Python's `list(reversed(s))`. */
  function Reverse<T>(s: seq<T>): (r: seq<T>)
    ensures |r| == |s|
    ensures forall i :: 0 <= i < |s| ==> r[i] == s[|s| - 1 - i]
  {
    if s == [] then [] else Reverse(s[1..]) + [s[0]]
  }

  /** Reversal is a permutation. */
  lemma {:induction false} ReversePermutes<T>(s: seq<T>)
    ensures multiset(Reverse(s)) == multiset(s)
  {
    if s != [] {
      ReversePermutes(s[1..]);
      assert s == [s[0]] + s[1..];
    }
  }

  /** Dropping the first `k` of the reversed list reverses all but the last `k`. */
  lemma {:induction false} ReverseDrop<T>(s: seq<T>, k: nat)
    requires k <= |s|
    ensures Reverse(s)[k..] == Reverse(s[..|s| - k])
  {
    if k < |s| {
      var tail := s[1..];
      ReverseDrop(tail, k);
      var older := s[..|s| - k];
      assert older == [s[0]] + tail[..|tail| - k];
      assert older[1..] == tail[..|tail| - k];
      assert Reverse(s)[k..] == Reverse(tail)[k..] + [s[0]];
    }
  }
}
